=== FILE: README.md ===
# HTTPServer core, modelled in Dafny

A model of the core of a small single-shot HTTP/1.1 server written in Swift
(`HTTPServer`): the incremental request assembler that turns arbitrarily
chunked reads into one parsed request, the per-connection read callback that
drives it, the request/response message values, the listener's port probe and
accept drain, the rendering of a peer address, and the system-call checking
helpers.

One module per Swift file:

- `basics.dfy` (`Basics`): `Option`, `Result`, `Outcome`, bytes and a 32-bit `CInt`.
- `http_server.dfy` (`HTTPServer`): `splitData`, `RequestInProgress`,
  `consumeData`, and the read callback of `httpConnectionHandler` as the class
  `Connection`, whose `ReadCallback` updates `accumulated`/`request` and returns
  the effects (log, invoke handler, write, close, trap) the callback performs.
- `http_message.dfy` (`HTTPMessage`): the request accessors (a parsed header
  map holds one entry per field, names being distinct without regard to case),
  `messsageBodyLength`, and `HTTPResponse` as a value type (`Response`) with its setters.
- `socket_server.dfy` (`SocketServer`): `bindToAnyPort`, the accept event
  handler with `forEachPendingConnection`, and `deinit`.
- `client_socket.dfy` (`ClientSocket`): `SocketAddress.description` and its
  helpers, read with the BSD `sockaddr_in` layout.
- `darwin.dfy` (`Darwin`) and `errors.dfy` (`Errors`): the two variants of
  `attempt`, the validity rules and `ignoreAndLogErrors`.

Foreign calls are parameters: the CoreFoundation header parser and
`NSString.integerValue` (bundled as `HTTPMessage.Codec`), `inet_ntop`,
`Int.defaultHTTPStatusDescription`, `arc4random_uniform(1000)`, and the outcome
of each `bind` (a function of the port) and each `accept` (a sequence, one
outcome per accept).

Behaviour the model keeps exactly as the code has it, although a reader of
the server's purpose might expect otherwise:

- `Content-Length` is honoured only when a `Transfer-Encoding` header is
  present, whatever its value; otherwise the body length is 0.
- A negative `Content-Length` value (with `Transfer-Encoding` present) is not
  an error state: it passes `bodyLength <= tail.count` and `splitData` then
  forms the range `0 ..< negative`, which traps. The model returns the explicit
  outcome `RangeTrap`; `SplitData` requires `0 <= location <= |data|`.
  An unparsable value is whatever `integerValue` makes of it.
- The handler is invoked on every read callback that finds the request
  complete, not once: a complete request followed by the end-of-stream
  callback invokes it twice (`HandlerRunsOnEveryCallback`).

## Model

| member | source | states |
|---|---|---|
| `HTTPServer.SplitData` | HTTPServer/HTTPServer.swift:79-83 | head and tail concatenate to the input and the head has exactly `location` bytes; requires `0 <= location <= |data|` |
| `HTTPServer.FindTerminatorFrom` | HTTPServer/HTTPServer.swift:112 | the result is the leftmost index of CR LF CR LF at or after the start, or none exists |
| `HTTPServer.TerminatorStable` | HTTPServer/HTTPServer.swift:112-116 | appending bytes does not move the leftmost terminator already present |
| `HTTPServer.ConsumeData` | HTTPServer/HTTPServer.swift:101-141 | never returns `none`; the remainder is a suffix of the input; `error` and `complete` return themselves and the input unchanged; from `incompleteMessage` the body length never changes; a trap only happens while reading the header |
| `HTTPServer.ConsumeHeader` | HTTPServer/HTTPServer.swift:105-130 | the remainder of the header branch is a suffix of the input and the state is never `none` |
| `HTTPServer.NoRequestIsIncompleteHeader` | HTTPServer/HTTPServer.swift:105-107 | `none` consumes exactly like `incompleteHeader` |
| `HTTPServer.NoTerminatorKeepsEverything` | HTTPServer/HTTPServer.swift:112-115 | without CR LF CR LF the state becomes `incompleteHeader` and the whole input is the remainder |
| `HTTPServer.HeaderParseFailure` | HTTPServer/HTTPServer.swift:116-121 | a rejected header block (through the leftmost terminator) gives `error` with the whole input as remainder |
| `HTTPServer.CompleteInOneRead` | HTTPServer/HTTPServer.swift:116-127 | with enough bytes after the header the state is `complete(m, n)`; the completed request's body data is exactly the next `n` bytes (the parser is handed the header block alone, so `m` has no body yet); header + body + remainder equals the input |
| `HTTPServer.AwaitBody` | HTTPServer/HTTPServer.swift:123-129 | too few bytes after the header give `incompleteMessage(m, n)` with all post-header bytes as remainder |
| `HTTPServer.NegativeBodyLengthTraps` | HTTPServer/HTTPServer.swift:123-125 | a negative body length reaches `splitData` with an out-of-range location: the outcome is the trap |
| `HTTPServer.BodyArrives` | HTTPServer/HTTPServer.swift:131-137 | from `incompleteMessage(m, n)`: complete with exactly the first `n` bytes as body once `n` bytes are there, otherwise unchanged with every byte kept |
| `HTTPServer.Feed` | HTTPServer/HTTPServer.swift:36-45 | one read hands the kept remainder plus the new bytes to `consumeData`; the new remainder is a suffix of those bytes and a trap is final |
| `HTTPServer.ConsumeExtend` | HTTPServer/HTTPServer.swift:36-45 | consuming a prefix and then its remainder plus the rest ends where consuming everything at once ends |
| `HTTPServer.ChunkingInvariant` | HTTPServer/HTTPServer.swift:36-45 | any non-empty chunking of a byte stream, fed read by read, reaches the same state and remainder as the whole stream in one read |
| `HTTPServer.TrickledHeaderStaysIncomplete` | HTTPServer/HTTPServer.swift:105-115 | a header that arrives over any number of reads without a terminator stays `incompleteHeader` with every byte kept |
| `HTTPServer.ErrorEffects` | HTTPServer/HTTPServer.swift:32-34 | a read error is logged, as `LogChannelError(error)` and nothing else, exactly when it is neither 0 nor the cancellation code 89 |
| `HTTPServer.DispatchEffects` | HTTPServer/HTTPServer.swift:46-64 | `complete` invokes the handler with the message and the client address, `error` closes with `.stop`, other states do nothing |
| `HTTPServer.RespondEffects` | HTTPServer/HTTPServer.swift:48-58 | a response is written; no response closes the channel without writing |
| `HTTPServer.WriteProgressEffects` | HTTPServer/HTTPServer.swift:51-55 | the channel is closed with `.stop` exactly when the write is done or has failed |
| `HTTPServer.Connection.constructor` | HTTPServer/HTTPServer.swift:24-26 | a connection starts with nothing accumulated and request `none` |
| `HTTPServer.Connection.ReadCallback` | HTTPServer/HTTPServer.swift:30-68 | new data is appended and consumed and the remainder stored; the state is always that of consuming all bytes received so far at once; effects are the error log, the dispatch on the state, then a graceful close on end of stream |
| `HTTPServer.HandlerRunsOnEveryCallback` | HTTPServer/HTTPServer.swift:46-67 | a request completed by one read invokes the handler again on the following end-of-stream callback, which also closes the channel |
| `HTTPMessage.HeaderField` | HTTPServer/HTTPMessage.swift:43-45 | the value of the one field whose name matches without regard to ASCII case; absent when the headers are unreadable or no name matches |
| `HTTPMessage.AllHeaderFields` | HTTPServer/HTTPMessage.swift:34-41 | the header map, or the empty map when the headers cannot be read as a String-to-String map; one entry per field (no two names differ only in case); each entry is what looking its name up gives, and every field found by a lookup has an entry |
| `HTTPMessage.BodyData` | HTTPServer/HTTPMessage.swift:22-24 | a request without a body reads as empty data |
| `HTTPMessage.AppendBody` | HTTPServer/HTTPMessage.swift:120-127 | the body grows by exactly the appended bytes; method, URL and headers are unchanged |
| `HTTPMessage.BodyLength` | HTTPServer/HTTPMessage.swift:113-119 | 0 unless both `Content-Length` and `Transfer-Encoding` are present in some spelling, and then the integer value of `Content-Length` |
| `HTTPMessage.ContentLengthAloneMeansNoBody` | HTTPServer/HTTPMessage.swift:117 | a request with no field named `Transfer-Encoding` in any case has body length 0, whatever its `Content-Length` |
| `HTTPMessage.TransferEncodingValueIgnored` | HTTPServer/HTTPMessage.swift:116-118 | two requests with the same field names that differ only in the value of `Transfer-Encoding` have the same body length |
| `HTTPMessage.LowercaseContentLengthHonoured` | HTTPServer/HTTPMessage.swift:115-118 | `content-length: 5` with `Transfer-Encoding` present gives the value of "5", as `Content-Length` would |
| `HTTPMessage.Response.BodyData` | HTTPServer/HTTPMessage.swift:58-61 | a response without a body reads as empty data |
| `HTTPMessage.Response.WithBodyData` | HTTPServer/HTTPMessage.swift:62-65 | reading the body after setting it gives the bytes set; status and headers are unchanged |
| `HTTPMessage.Response.SetHeaderField` | HTTPServer/HTTPMessage.swift:68-75 | header names are compared without regard to ASCII case: a value replaces every spelling of the field with the given one, `nil` removes them all; fields with other names, the status and the body are unchanged |
| `HTTPMessage.NewResponse` | HTTPServer/HTTPMessage.swift:51-56 | the status description is the given one, else the code's default, else "Unknown"; the headers are exactly `Connection: close`; the body is empty |
| `HTTPMessage.ConnectionCloseSurvives` | HTTPServer/HTTPMessage.swift:54-75 | `Connection: close` survives every sequence of header and body updates that does not name `Connection` in any case |
| `HTTPMessage.LowercaseConnectionReplaces` | HTTPServer/HTTPMessage.swift:55-75 | setting `connection: keep-alive` replaces the forced `Connection: close` rather than adding a second field |
| `HTTPMessage.TestHandlerResponse` | HTTPServerTests/HTTPServerTests.swift:28-31 | the test handler's response has status 200 "Ok", body "hey" and headers `Connection: close`, `Content-Length: 3`, `Foo: Bar` |
| `SocketServer.StartPort` | HTTPServer/SocketServer.swift:89 | the probe starts in [8000, 8999] |
| `SocketServer.BindToAnyPort` | HTTPServer/SocketServer.swift:88-98 | the result is the first port of [start, 10000] that binds with every earlier one in use, or the first bind error other than EADDRINUSE with every earlier port in use, or `noPortAvailable` when every port is in use |
| `SocketServer.AttemptedBind` | HTTPServer/Errors.swift:43-49 | a bind through the free `attempt` with the zero test passes exactly on 0 and fails with the returned value, not `errno`, as its code |
| `SocketServer.BindToAnyPortAsWritten` | HTTPServer/SocketServer.swift:88-98 | as written, with binds that return 0 or -1 reported through `attempt`: the first port is bound if it is free, and otherwise the probe stops there with code -1 |
| `SocketServer.ErrnoBind` | HTTPServer/SocketServer.swift:93 | a failed bind reported with its `errno`, the code the `catch` tests |
| `SocketServer.BindToAnyPortWithErrno` | HTTPServer/SocketServer.swift:88-98 | with `errno` reported, the probe binds the first free port with every earlier one in use (`EADDRINUSE`), or stops at the first other failure with its `errno`, or reports `noPortAvailable` when every port is in use |
| `SocketServer.AcceptPendingConnections` | HTTPServer/SocketServer.swift:53-83 | the block runs exactly `pending` times; every successful accept is handed to the accept handler with its address, in order; every failed one is logged |
| `SocketServer.AcceptedAppend` | HTTPServer/SocketServer.swift:78-83 | the connections handed over by consecutive batches of accepts are those of each batch, in order |
| `SocketServer.FailedAcceptSkipped` | HTTPServer/SocketServer.swift:55-63 | a failed accept does not drop the connections after it |
| `SocketServer.Teardown` | HTTPServer/SocketServer.swift:68-73 | a failing close of the listening socket is logged, never thrown; it fails exactly when `close` does not return 0 |
| `ClientSocket.PortNumber` | HTTPServer/ClientSocket.swift:88 | the port is `sin_port` read in network (big-endian) byte order |
| `ClientSocket.InFamily` | HTTPServer/ClientSocket.swift:62-65 | the family is the `sin_family` byte, at offset 1 of the address |
| `ClientSocket.InAddrBytes` | HTTPServer/ClientSocket.swift:73 | the address handed to `inet_ntop` is the four bytes at the `sockaddr_in` address offset, for IPv6 too |
| `ClientSocket.Nuls` | HTTPServer/ClientSocket.swift:72 | the zero-filled buffer padding |
| `ClientSocket.InAddrDescription` | HTTPServer/ClientSocket.swift:66-81 | none for an unknown family or a failed `inet_ntop`; otherwise the whole 46-character buffer: the text `inet_ntop` wrote followed by NULs up to 46 characters |
| `ClientSocket.DecimalString` | HTTPServer/ClientSocket.swift:88 | decimal digits without leading zeros whose value is the number |
| `ClientSocket.DecimalStringUnique` | HTTPServer/ClientSocket.swift:88 | a number has exactly one decimal rendering without leading zeros, the one `DecimalString` gives |
| `ClientSocket.InPortDescription` | HTTPServer/ClientSocket.swift:82-92 | present exactly for IPv4 and IPv6, and then the digits of the port without leading zeros, which is `"\(port)"` |
| `ClientSocket.Description` | HTTPServer/ClientSocket.swift:45-58 | `addr:port` for IPv4, `[addr]:port` for IPv6, `<unknown>` for another family or a missing address |
| `ClientSocket.DescriptionKeepsNulPadding` | HTTPServer/ClientSocket.swift:72-76 | as written, an IPv4 peer renders with the buffer's NUL padding between host and colon |
| `ClientSocket.LoopbackRendering` | HTTPServer/ClientSocket.swift:45-58 | the peer 127.0.0.1:8080 renders as "127.0.0.1", 37 NULs and ":8080"; trimmed, as "127.0.0.1:8080" |
| `ClientSocket.CString` | HTTPServer/ClientSocket.swift:75-76 | the text of a C string: the prefix before the first NUL |
| `ClientSocket.CStringOfPadded` | HTTPServer/ClientSocket.swift:72-76 | text padded with NULs reads back as the text |
| `ClientSocket.TrimmedDescription` | HTTPServer/ClientSocket.swift:45-58 | the corrected rendering is `<unknown>` in exactly the cases of the original; otherwise `text:port` for IPv4 and `[text]:port` for IPv6, the address cut at its first NUL |
| `ClientSocket.TrimmedDescriptionIPv4` | HTTPServer/ClientSocket.swift:45-58 | the corrected rendering of an IPv4 peer is exactly the `inet_ntop` text, a colon and the decimal port |
| `ClientSocket.TrimmedDescriptionIPv6` | HTTPServer/ClientSocket.swift:45-58 | the corrected rendering of an IPv6 peer is the `inet_ntop` text of the four bytes at the `sin_addr` offset, in brackets, a colon and the decimal port |
| `Darwin.MakeCallError` | HTTPServer/Darwin.swift:23-32 | the error carries the operation, and its code is the backing POSIX error's code, the given errno |
| `Darwin.AttemptWith` | HTTPServer/Darwin.swift:41-47 | a valid result is returned unchanged; an invalid one is thrown with the operation name and the result itself as code |
| `Darwin.Attempt` | HTTPServer/Darwin.swift:35-37 | with `.notMinusOne` the call succeeds iff it returned other than -1, with `.zero` iff it returned 0; failures carry the name and the result |
| `Darwin.Valid.Predicate` | HTTPServer/Darwin.swift:52-57 | `.notMinusOne` accepts exactly the results other than -1, `.zero` exactly 0 |
| `Darwin.IsZeroIsValidZero` | HTTPServer/Darwin.swift:52-57 | the corrected free `is0` agrees with the `.zero` rule |
| `Errors.MakeDarwinError` | HTTPServer/Errors.swift:23-29 | the error carries the operation and the given errno as code |
| `Errors.Attempt` | HTTPServer/Errors.swift:43-49 | a valid result is returned unchanged; an invalid one is thrown with the operation name and the result itself as code |
| `Errors.IsNotNegative1` | HTTPServer/Errors.swift:51-53 | a result is rejected exactly when it is -1 |
| `Errors.Is0` | HTTPServer/Errors.swift:54-56 | as written, a result is rejected exactly when it is -1 |
| `Errors.Is0IsIsNotNegative1` | HTTPServer/Errors.swift:51-56 | `is0` is the same predicate as `isNotNegative1` |
| `Errors.Is0AcceptsNonZero` | HTTPServer/Errors.swift:54-56 | a call returning 1 passes `attempt` with `is0` and fails it with the zero test |
| `Errors.AttemptIsZero` | HTTPServer/Errors.swift:54-56 | with the corrected zero test, `attempt` succeeds exactly on 0 and throws any other result as its code |
| `Errors.IgnoreAndLogErrors` | HTTPServer/Errors.swift:60-66 | never rethrows; it logs an error exactly when the block threw one, and that error |

## Left out

- Dispatch I/O and sources (`DispatchIO`, `setInterval`, queues, the accept
  source, channel read/write/close as real I/O): the callbacks are modelled as
  steps returning effects; the scheduling and concurrency are not modelled.
- The handler is a collaborator: `ReadCallback` reports that it is invoked;
  the response callback it is given is modelled by `RespondEffects`, and the
  write progress by `WriteProgressEffects`.
- `HTTPServer.Connection.ReadCallback`: after a `RangeTrap` the process is
  gone, so further callbacks are not modelled (the method requires no earlier trap).
- `SocketServer`'s initialisers (`socket`, `bindToAnyPort`, `fcntl`,
  `listen`, creating the source) and everything in `HTTPServer/TCPSocket.swift`
  are system calls; only the bind and accept outcomes enter the model, as
  oracles. `bindToPort` is not part of this model: its outcome is taken to be
  a `DarwinError`, which is what the `catch` of `bindToAnyPort` matches on.
- `SocketServer.BindToAnyPort`: its `bind` oracle admits `DarwinError`s with
  code `EADDRINUSE`, which neither visible `attempt` helper produces (see
  Findings). The only binder shown, `bind(to:)` in `HTTPServer/TCPSocket.swift`,
  throws `DarwinCall.Error`, a type the `catch` does not match at all, so
  through it any bind failure ends the probe; that path is not modelled.
- `createIOChannelWithQueue`: the channel handed to the accept handler is
  represented by the accepted socket and its address.
- CoreFoundation internals: header parsing, `CFHTTPMessageIsHeaderComplete`,
  `serializedData` and its deallocator, `NSString.integerValue`,
  `defaultHTTPStatusDescription` and `inet_ntop` are parameters.
- `HTTPMessage.Response.SetHeaderField`: case is folded for ASCII letters
  only (as in `HTTPMessage.HeaderField`), and when a field is replaced under a differently-cased name the model
  keeps the new spelling; which spelling CoreFoundation keeps is not modelled.
- `HTTPMessage.Codec`: the header parser is not constrained to return a
  message without a body; `HTTPServer.CompleteInOneRead` states the body of the
  completed request for a parser that does, as CoreFoundation does when it is
  handed only the header block.
- `HTTPMessage.HeaderField`: case is folded for ASCII letters only, and a
  message whose header dictionary cannot be read as a String-to-String map has
  no single field either (the two CoreFoundation calls are modelled on one map).
- `HTTPRequest.init`'s debug assertion and the force-unwrapped `method`/`URL`
  (plain strings here; URL parsing is not modelled).
- Copy-on-write (`ensureUnique`, `isKnownUniquelyReferenced`): `Response` is a
  value, so updating one response never changes another it was copied from;
  the reference-sharing it guards against does not exist in the model.
- The `file`/`line` fields of both error types, their `description`s and all
  logging text (`print`, `strerror`).
- Ports are integers in range rather than `UInt16`; `CInt` is a 32-bit range.

## Findings

| source | as written | input that shows it | evidently intended | confidence | as-written member | corrected member |
|---|---|---|---|---|---|---|
| HTTPServer/Errors.swift:54-56 | `is0` returns `r != -1`, the same test as `isNotNegative1` | a call returning 1 passes `attempt` with `is0` | `r == 0` | high; not executed | `Errors.Is0AcceptsNonZero` | `Errors.AttemptIsZero` |
| HTTPServer/SocketServer.swift:93 | the probe moves on only for a `DarwinError` whose code is `EADDRINUSE`, but `attempt` (HTTPServer/Errors.swift:45-46, HTTPServer/Darwin.swift:43-44) throws the call's return value, -1 for a failed `bind`, as the code | a first port already in use: the bind fails with code -1 and the probe ends with that error | the error carries `errno`, so ports in use are skipped | medium; not executed | `SocketServer.BindToAnyPortAsWritten` | `SocketServer.BindToAnyPortWithErrno` |
| HTTPServer/ClientSocket.swift:72-76 | the address text is decoded from the whole zero-filled 46-byte buffer, NULs included | peer 127.0.0.1 port 8080 renders as "127.0.0.1", 37 NULs, ":8080" | "127.0.0.1:8080" | medium; not executed | `ClientSocket.LoopbackRendering` | `ClientSocket.TrimmedDescriptionIPv4` |

=== FILE: basics.dfy ===
/** Shared value types: optional values, results of calls that can throw, and raw bytes. */
module Basics {

  /** A byte as the source's `UInt8`, and a byte buffer as its `Data`/`DispatchData`. */
  type Byte = bv8
  type Bytes = seq<Byte>

  /** A C `int` as returned by a system call (`CInt`, 32 bits, two's complement). */
  newtype CInt = x: int | -0x8000_0000 <= x < 0x8000_0000

  /** A Swift optional (`T?`). */
  datatype Option<+T> = None | Some(value: T) {
    function GetOr(default: T): T {
      match this
      case Some(v) => v
      case None => default
    }
  }

  /** The outcome of a Swift function marked `throws`. */
  datatype Result<+R, +E> = Success(value: R) | Failure(error: E)

  /** The outcome of a throwing block that returns nothing. */
  datatype Outcome<+E> = Pass | Fail(error: E)
}

=== FILE: client_socket.dfy ===
/** The peer address of an accepted connection and its rendering as text.
    The address bytes are read with the BSD `sockaddr_in` layout: `sin_len`
    at offset 0, `sin_family` at 1, `sin_port` (network byte order) at 2-3 and
    `sin_addr` at 4-7, 16 bytes in all. */
module ClientSocket {
  import opened Basics

  const AF_INET: Byte := 2
  const AF_INET6: Byte := 30
  /** Size of the buffer handed to `inet_ntop`. */
  const INET6_ADDRSTRLEN: nat := 46
  /** `MemoryLayout<sockaddr_in>.size`. */
  const SOCKADDR_IN_SIZE: nat := 16
  /** Offset of `sin_addr` in `sockaddr_in`. */
  const SIN_ADDR_OFFSET: nat := 4

  /** Wraps a `sockaddr`, which may hold more bytes than a `sockaddr_in`. */
  datatype SocketAddress = SocketAddress(addressData: Bytes)

  /** A socket connected to a client: its peer address and descriptor. */
  datatype ClientSocket = ClientSocket(address: SocketAddress, backingSocket: CInt)

  /** The address bytes cover a whole `sockaddr_in`, which every accessor reads. */
  predicate Readable(a: SocketAddress) {
    |a.addressData| >= SOCKADDR_IN_SIZE
  }

  /** `inFamily`: the `sin_family` byte. */
  function InFamily(a: SocketAddress): (f: Byte)
    requires Readable(a)
    ensures f == a.addressData[1]
  {
    a.addressData[1]
  }

  /** Whether the family is one of the two the accessors understand. */
  predicate KnownFamily(a: SocketAddress)
    requires Readable(a)
  {
    InFamily(a) == AF_INET || InFamily(a) == AF_INET6
  }

  /** `sin_port` converted from big-endian (network) to host order. */
  function PortNumber(a: SocketAddress): (p: nat)
    requires Readable(a)
    ensures p < 0x1_0000
    ensures p / 256 == a.addressData[2] as nat && p % 256 == a.addressData[3] as nat
  {
    a.addressData[2] as nat * 256 + a.addressData[3] as nat
  }

  /** The four bytes at the `sin_addr` offset, which are handed to `inet_ntop`
      with `AF_INET` whatever the family is. */
  function InAddrBytes(a: SocketAddress): (b: Bytes)
    requires Readable(a)
    ensures |b| == 4
    ensures b == a.addressData[SIN_ADDR_OFFSET..SIN_ADDR_OFFSET + 4]
  {
    a.addressData[SIN_ADDR_OFFSET..SIN_ADDR_OFFSET + 4]
  }

  /** `n` copies of the NUL character. */
  function Nuls(n: nat): (s: string)
    ensures |s| == n
    ensures forall i :: 0 <= i < n ==> s[i] == '\0'
  {
    if n == 0 then [] else Nuls(n - 1) + ['\0']
  }

  /** `inAddrDescription`. `ntop` stands for `inet_ntop(AF_INET, …)` and gives
      the text it writes before its terminating NUL, or `None` when it fails.
      The text is decoded from the whole zero-filled `INET6_ADDRSTRLEN` buffer,
      so it keeps the NUL padding after it; text that leaves no room for the
      terminator makes `inet_ntop` fail. */
  function InAddrDescription(a: SocketAddress, ntop: Bytes -> Option<string>): (d: Option<string>)
    requires Readable(a)
    ensures !KnownFamily(a) ==> d == None
    ensures KnownFamily(a) ==>
      (d.Some? <==> ntop(InAddrBytes(a)).Some? && |ntop(InAddrBytes(a)).value| < INET6_ADDRSTRLEN)
    ensures d.Some? ==> |d.value| == INET6_ADDRSTRLEN
    ensures d.Some? ==> d.value[..|ntop(InAddrBytes(a)).value|] == ntop(InAddrBytes(a)).value
    ensures d.Some? ==>
      d.value == ntop(InAddrBytes(a)).value + Nuls(INET6_ADDRSTRLEN - |ntop(InAddrBytes(a)).value|)
  {
    if !KnownFamily(a) then None
    else match ntop(InAddrBytes(a))
      case None => None
      case Some(text) =>
        if |text| < INET6_ADDRSTRLEN then Some(text + Nuls(INET6_ADDRSTRLEN - |text|)) else None
  }

  /** The value of a string of decimal digits. */
  function DecimalValue(s: string): nat
  {
    if s == [] then 0 else DecimalValue(s[..|s| - 1]) * 10 + DigitValue(s[|s| - 1])
  }

  predicate IsDigit(c: char) {
    '0' <= c <= '9'
  }

  function DigitValue(c: char): nat {
    if IsDigit(c) then (c - '0') as nat else 0
  }

  /** Swift's `"\(n)"` for a non-negative integer: its decimal digits, no
      leading zeros. */
  function DecimalString(n: nat): (s: string)
    ensures |s| >= 1
    ensures forall i :: 0 <= i < |s| ==> IsDigit(s[i])
    ensures |s| > 1 ==> s[0] != '0'
    ensures DecimalValue(s) == n
  {
    var last := ['0' + (n % 10) as char];
    if n < 10 then last
    else
      var s := DecimalString(n / 10) + last;
      assert s[..|s| - 1] == DecimalString(n / 10);
      s
  }

  /** A digit string whose value is at least 1 when its first digit is not 0. */
  lemma {:induction false} LeadingDigitPositive(s: string)
    requires |s| >= 1 && IsDigit(s[0]) && s[0] != '0'
    ensures DecimalValue(s) >= 1
    decreases |s|
  {
    if |s| > 1 {
      LeadingDigitPositive(s[..|s| - 1]);
    }
  }

  /** There is only one way to write a number in decimal without leading
      zeros: any such string of digits with value `n` is `DecimalString(n)`. */
  lemma {:induction false} DecimalStringUnique(s: string, n: nat)
    requires |s| >= 1 && forall i :: 0 <= i < |s| ==> IsDigit(s[i])
    requires |s| > 1 ==> s[0] != '0'
    requires DecimalValue(s) == n
    ensures s == DecimalString(n)
    decreases |s|
  {
    var last := s[|s| - 1];
    var digit := DigitValue(last);
    assert digit < 10 && last == '0' + digit as char;
    if |s| == 1 {
      assert s == [last];
    } else {
      var init := s[..|s| - 1];
      LeadingDigitPositive(init);
      assert n / 10 == DecimalValue(init) && n % 10 == digit;
      DecimalStringUnique(init, n / 10);
      assert s == init + [last];
    }
  }

  /** `inPortDescription`: the decimal port for the two known families. */
  function InPortDescription(a: SocketAddress): (d: Option<string>)
    requires Readable(a)
    ensures d.Some? <==> KnownFamily(a)
    ensures d.Some? ==> DecimalValue(d.value) == PortNumber(a)
    ensures d.Some? ==> forall i :: 0 <= i < |d.value| ==> IsDigit(d.value[i])
    ensures d.Some? ==> |d.value| >= 1 && (|d.value| > 1 ==> d.value[0] != '0')
    ensures d.Some? ==> d.value == DecimalString(PortNumber(a))
  {
    if KnownFamily(a) then Some(DecimalString(PortNumber(a))) else None
  }

  /** `description`: `host:port` for IPv4, `[host]:port` for IPv6 and
      `<unknown>` for anything else or when a part is missing. */
  function Description(a: SocketAddress, ntop: Bytes -> Option<string>): (s: string)
    requires Readable(a)
    ensures InFamily(a) == AF_INET && InAddrDescription(a, ntop).Some? ==>
      s == InAddrDescription(a, ntop).value + ":" + InPortDescription(a).value
    ensures InFamily(a) == AF_INET6 && InAddrDescription(a, ntop).Some? ==>
      s == "[" + InAddrDescription(a, ntop).value + "]:" + InPortDescription(a).value
    ensures !KnownFamily(a) || InAddrDescription(a, ntop).None? ==> s == "<unknown>"
  {
    match (InAddrDescription(a, ntop), InPortDescription(a))
    case (Some(addr), Some(port)) =>
      if InFamily(a) == AF_INET6 then "[" + addr + "]:" + port
      else if InFamily(a) == AF_INET then addr + ":" + port
      else "<unknown>"
    case _ => "<unknown>"
  }

  /** The text of a C string held in a buffer: everything before the first NUL. */
  function CString(s: string): (r: string)
    ensures |r| <= |s| && r == s[..|r|]
    ensures '\0' !in r
    ensures |r| < |s| ==> s[|r|] == '\0'
  {
    if s == [] || s[0] == '\0' then [] else [s[0]] + CString(s[1..])
  }

  /** The C string of text followed by NULs is the text itself. */
  lemma {:induction false} CStringOfPadded(text: string, n: nat)
    requires '\0' !in text
    ensures CString(text + Nuls(n)) == text
  {
    if text == [] {
      if n > 0 {
        assert (text + Nuls(n))[0] == '\0';
      }
    } else {
      assert (text + Nuls(n))[1..] == text[1..] + Nuls(n);
      CStringOfPadded(text[1..], n);
    }
  }

  /** `description` with the address text cut at its first NUL. */
  function TrimmedDescription(a: SocketAddress, ntop: Bytes -> Option<string>): (s: string)
    requires Readable(a)
    ensures !KnownFamily(a) || InAddrDescription(a, ntop).None? ==> s == "<unknown>"
    ensures KnownFamily(a) && InAddrDescription(a, ntop).Some? ==> s != "<unknown>"
    ensures InFamily(a) == AF_INET && InAddrDescription(a, ntop).Some? ==>
      s == CString(InAddrDescription(a, ntop).value) + ":" + InPortDescription(a).value
    ensures InFamily(a) == AF_INET6 && InAddrDescription(a, ntop).Some? ==>
      s == "[" + CString(InAddrDescription(a, ntop).value) + "]:" + InPortDescription(a).value
  {
    match (InAddrDescription(a, ntop), InPortDescription(a))
    case (Some(addr), Some(port)) =>
      if InFamily(a) == AF_INET6 then
        var s := "[" + CString(addr) + "]:" + port;
        assert s[0] == '[' != "<unknown>"[0];
        s
      else if InFamily(a) == AF_INET then
        var s := CString(addr) + ":" + port;
        assert s[|CString(addr)|] == ':' && ':' !in "<unknown>";
        s
      else "<unknown>"
    case _ => "<unknown>"
  }

  /** With the padding cut off, an IPv4 peer renders as exactly the text
      `inet_ntop` produced, a colon and the decimal port. */
  lemma TrimmedDescriptionIPv4(a: SocketAddress, ntop: Bytes -> Option<string>, text: string)
    requires Readable(a) && InFamily(a) == AF_INET
    requires ntop(InAddrBytes(a)) == Some(text)
    requires '\0' !in text && |text| < INET6_ADDRSTRLEN
    ensures TrimmedDescription(a, ntop) == text + ":" + DecimalString(PortNumber(a))
  {
    CStringOfPadded(text, INET6_ADDRSTRLEN - |text|);
  }

  /** With the padding cut off, an IPv6 peer renders as the text `inet_ntop`
      produced from the four bytes at the `sin_addr` offset, in brackets,
      then a colon and the decimal port. */
  lemma TrimmedDescriptionIPv6(a: SocketAddress, ntop: Bytes -> Option<string>, text: string)
    requires Readable(a) && InFamily(a) == AF_INET6
    requires ntop(InAddrBytes(a)) == Some(text)
    requires '\0' !in text && |text| < INET6_ADDRSTRLEN
    ensures TrimmedDescription(a, ntop) == "[" + text + "]:" + DecimalString(PortNumber(a))
  {
    CStringOfPadded(text, INET6_ADDRSTRLEN - |text|);
  }

  /** The parts of `description` for an address `inet_ntop` can render. */
  lemma PaddedAddress(a: SocketAddress, ntop: Bytes -> Option<string>, text: string)
    requires Readable(a) && KnownFamily(a)
    requires ntop(InAddrBytes(a)) == Some(text)
    requires |text| < INET6_ADDRSTRLEN
    ensures InAddrDescription(a, ntop) == Some(text + Nuls(INET6_ADDRSTRLEN - |text|))
    ensures InPortDescription(a) == Some(DecimalString(PortNumber(a)))
  {
  }

  /** As written, the rendering of an IPv4 peer keeps the NUL padding of the
      `inet_ntop` buffer between the host and the colon. */
  lemma DescriptionKeepsNulPadding(a: SocketAddress, ntop: Bytes -> Option<string>, text: string)
    requires Readable(a) && InFamily(a) == AF_INET
    requires ntop(InAddrBytes(a)) == Some(text)
    requires |text| < INET6_ADDRSTRLEN
    ensures Description(a, ntop) == text + Nuls(INET6_ADDRSTRLEN - |text|) + ":" + DecimalString(PortNumber(a))
    ensures Description(a, ntop)[|text|] == '\0'
  {
    var pad := Nuls(INET6_ADDRSTRLEN - |text|);
    var port := DecimalString(PortNumber(a));
    PaddedAddress(a, ntop, text);
    assert (text + pad + ":" + port)[|text|] == pad[0];
  }

  /** The loopback peer 127.0.0.1, port 8080, as `accept` reports it. */
  const Loopback8080: SocketAddress :=
    SocketAddress([16, AF_INET, 0x1F, 0x90, 127, 0, 0, 1, 0, 0, 0, 0, 0, 0, 0, 0])

  /** The concrete case: the peer 127.0.0.1:8080 renders as "127.0.0.1", 37
      NULs and ":8080" as written, and as "127.0.0.1:8080" once trimmed. */
  lemma LoopbackRendering(ntop: Bytes -> Option<string>)
    requires ntop([127, 0, 0, 1]) == Some("127.0.0.1")
    ensures Description(Loopback8080, ntop) == "127.0.0.1" + Nuls(37) + ":8080"
    ensures TrimmedDescription(Loopback8080, ntop) == "127.0.0.1:8080"
  {
    var a := Loopback8080;
    assert InAddrBytes(a) == [127, 0, 0, 1];
    assert PortNumber(a) == 8080;
    assert DecimalString(8080) == "8080" by {
      assert DecimalString(8) == "8";
      assert DecimalString(80) == "80";
      assert DecimalString(808) == "808";
    }
    DescriptionKeepsNulPadding(a, ntop, "127.0.0.1");
    TrimmedDescriptionIPv4(a, ntop, "127.0.0.1");
  }
}

=== FILE: darwin.dfy ===
/** `DarwinCall`: the namespaced variant of the system-call checking helper,
    with an enumeration of the two validity rules. */
module Darwin {
  import opened Basics
  import Errors

  /** Which results of a system call count as success. */
  datatype Valid = NotMinusOne | Zero {
    /** The predicate that a rule stands for. */
    function Predicate(): (p: CInt -> bool)
      ensures this == NotMinusOne ==> forall r :: p(r) <==> r != -1
      ensures this == Zero ==> forall r :: p(r) <==> r == 0
    {
      match this
      case NotMinusOne => (r: CInt) => r != -1
      case Zero => (r: CInt) => r == 0
    }
  }

  /** `DarwinCall.Error`: the failed operation and its backing POSIX error.
      The `file`/`line` call-site fields are not modelled. */
  datatype CallError = CallError(operation: string, backing: Errors.POSIXError) {
    /** `_code` forwards to the backing POSIX error. */
    function Code(): int {
      backing.code
    }
  }

  /** `DarwinCall.Error(operation:errno:)`. */
  function MakeCallError(operation: string, errno: CInt): (e: CallError)
    ensures e.operation == operation
    ensures e.Code() == errno as int && e.backing.code == errno as int
  {
    CallError(operation, Errors.POSIXError(errno as int))
  }

  /** The private `attempt(name:valid:call:)` taking a predicate; the call has
      already been evaluated to `result`. The thrown code is the call's own
      return value, not the global `errno`. */
  function AttemptWith(name: string, valid: CInt -> bool, result: CInt): (r: Result<CInt, CallError>)
    ensures r.Success? <==> valid(result)
    ensures r.Success? ==> r.value == result
    ensures r.Failure? ==> r.error.operation == name && r.error.Code() == result as int
  {
    if valid(result) then Success(result) else Failure(MakeCallError(name, result))
  }

  /** The public `attempt(name:valid:call:)` taking a rule. */
  function Attempt(name: string, valid: Valid, result: CInt): (r: Result<CInt, CallError>)
    ensures valid == NotMinusOne ==> (r.Success? <==> result != -1)
    ensures valid == Zero ==> (r.Success? <==> result == 0)
    ensures r.Success? ==> r.value == result
    ensures r.Failure? ==> r.error.operation == name && r.error.Code() == result as int
  {
    AttemptWith(name, valid.Predicate(), result)
  }

  /** The corrected free-standing `is0` agrees with the `.zero` rule. */
  lemma IsZeroIsValidZero(r: CInt)
    ensures Errors.IsZero(r) <==> Zero.Predicate()(r)
  {
  }
}

=== FILE: errors.dfy ===
/** The free-standing system-call checking helpers: a `DarwinError` carrying the
    failed operation's name and a POSIX code, `attempt`, the two validity
    predicates and `ignoreAndLogErrors`. */
module Errors {
  import opened Basics

  /** A POSIX error; only its numeric code matters here. */
  datatype POSIXError = POSIXError(code: int)

  /** The error thrown when a checked call returns an invalid result.
      The `file`/`line` call-site fields are not modelled. */
  datatype DarwinError = DarwinError(operation: string, backing: POSIXError) {
    /** `_code` forwards to the backing POSIX error. */
    function Code(): int {
      backing.code
    }
  }

  /** `DarwinError(operation:errno:)`: the POSIX code is the given `errno`. */
  function MakeDarwinError(operation: string, errno: CInt): (e: DarwinError)
    ensures e.operation == operation
    ensures e.Code() == errno as int
  {
    DarwinError(operation, POSIXError(errno as int))
  }

  /** `attempt(name, valid:, call)`: the call has already been evaluated to
      `result`; a valid result is returned unchanged, any other result is
      thrown as the code of a `DarwinError` naming the operation. */
  function Attempt(name: string, valid: CInt -> bool, result: CInt): (r: Result<CInt, DarwinError>)
    ensures r.Success? <==> valid(result)
    ensures r.Success? ==> r.value == result
    ensures r.Failure? ==> r.error.operation == name && r.error.Code() == result as int
  {
    if valid(result) then Success(result) else Failure(MakeDarwinError(name, result))
  }

  /** Accepts every result except the `-1` error marker. */
  predicate IsNotNegative1(r: CInt): (ok: bool)
    ensures !ok <==> r == -1
  {
    r != -1
  }

  /** As written, `is0` accepts every result except `-1`: it does not test for zero. */
  predicate Is0(r: CInt): (ok: bool)
    ensures !ok <==> r == -1
  {
    r != -1
  }

  /** What `is0` evidently means: only a zero result is valid. */
  predicate IsZero(r: CInt) {
    r == 0
  }

  /** `is0` and `isNotNegative1` are the same predicate. */
  lemma Is0IsIsNotNegative1(r: CInt)
    ensures Is0(r) <==> IsNotNegative1(r)
  {
  }

  /** A call that reports failure by returning a positive code (here 1) passes
      `attempt` with `is0`, whereas the intended zero test rejects it. */
  lemma Is0AcceptsNonZero()
    ensures Attempt("call", Is0, 1) == Success(1)
    ensures Attempt("call", IsZero, 1).Failure?
  {
  }

  /** With the corrected predicate, `attempt` succeeds exactly on a zero
      result and otherwise throws that result as the error code. */
  lemma AttemptIsZero(name: string, result: CInt)
    ensures Attempt(name, IsZero, result).Success? <==> result == 0
    ensures result != 0 ==> Attempt(name, IsZero, result).error.Code() == result as int
  {
  }

  /** `ignoreAndLogErrors`: runs a throwing block and never rethrows; the
      returned value is the error that is logged, if the block threw one. */
  function IgnoreAndLogErrors<E>(block: Outcome<E>): (logged: Option<E>)
    ensures logged.Some? <==> block.Fail?
    ensures block.Fail? ==> logged.value == block.error
  {
    match block
    case Pass => None
    case Fail(e) => Some(e)
  }
}

=== FILE: http_message.dfy ===
/** HTTP messages: the request a client sent (a parsed CoreFoundation
    message behind `HTTPRequest`), the response a handler builds
    (`HTTPResponse`, a value type), and the rule that decides how many body
    bytes follow a request's header block. */
module HTTPMessage {
  import opened Basics

  /** No two names in a header map spell the same field: CoreFoundation
      keeps one entry per field, whatever the case of its name. */
  predicate DistinctFieldNames(h: map<string, string>) {
    forall a, b :: a in h && b in h && SameFieldName(a, b) ==> a == b
  }

  /** The header fields of a parsed message. */
  type HeaderMap = h: map<string, string> | DistinctFieldNames(h) witness map[]

  /** A parsed request message. `headers` is `None` when the header
      dictionary cannot be read as a String-to-String map; `body` is `None`
      while no body bytes have been appended. */
  datatype Message = Message(
    requestMethod: string,
    url: string,
    headers: Option<HeaderMap>,
    body: Option<Bytes>)

  /** The foreign collaborators of the request parser: the CoreFoundation
      header parser (append the header bytes to an empty request message and
      ask whether the header is complete) and `NSString.integerValue`. */
  datatype Codec = Codec(
    parseHeader: Bytes -> Option<Message>,
    integerValue: string -> int)

  /** `CFHTTPMessageCopyHeaderFieldValue`: the value of one header field,
      whose name is matched without regard to case. */
  function HeaderField(m: Message, name: string): (v: Option<string>)
    ensures v.Some? <==> m.headers.Some? && exists k :: k in m.headers.value && SameFieldName(k, name)
    ensures forall k :: m.headers.Some? && k in m.headers.value && SameFieldName(k, name) ==>
      v == Some(m.headers.value[k])
  {
    match m.headers
    case Some(h) =>
      if exists k | k in h :: SameFieldName(k, name) then
        var k :| k in h && SameFieldName(k, name);
        Some(h[k])
      else None
    case None => None
  }

  /** `HTTPRequest.allHeaderFields`: the header map, or the empty map when the
      headers cannot be read as one. */
  function AllHeaderFields(m: Message): (fields: map<string, string>)
    ensures m.headers.None? ==> fields == map[]
    ensures DistinctFieldNames(fields)
    ensures forall name :: name in fields ==> HeaderField(m, name) == Some(fields[name])
    ensures forall name :: HeaderField(m, name).Some? ==> exists k :: k in fields && SameFieldName(k, name)
  {
    m.headers.GetOr(map[])
  }

  /** `HTTPRequest.bodyData`: the body, or empty data when there is none. */
  function BodyData(m: Message): (b: Bytes)
    ensures m.body.None? ==> b == []
    ensures m.body.Some? ==> b == m.body.value
  {
    m.body.GetOr([])
  }

  /** `appendDispatchData` on a message whose header is complete: the bytes
      are appended to its body. An empty buffer hands no bytes over and
      leaves the message as it was. */
  function AppendBody(m: Message, bytes: Bytes): (m': Message)
    ensures BodyData(m') == BodyData(m) + bytes
    ensures m'.requestMethod == m.requestMethod && m'.url == m.url && m'.headers == m.headers
    ensures bytes == [] ==> m' == m
  {
    if bytes == [] then m else m.(body := Some(BodyData(m) + bytes))
  }

  /** `messsageBodyLength`: the integer value of `Content-Length`, honoured
      only when a `Transfer-Encoding` header is present (whatever its value);
      otherwise 0. The value can be negative. */
  function BodyLength(m: Message, integerValue: string -> int): (n: int)
    ensures HeaderField(m, "Content-Length").None? || HeaderField(m, "Transfer-Encoding").None? ==> n == 0
    ensures HeaderField(m, "Content-Length").Some? && HeaderField(m, "Transfer-Encoding").Some? ==>
      n == integerValue(HeaderField(m, "Content-Length").value)
  {
    match (HeaderField(m, "Content-Length"), HeaderField(m, "Transfer-Encoding"))
    case (Some(l), Some(_)) => integerValue(l)
    case _ => 0
  }

  /** A request that declares its length only with `Content-Length` is read
      as having no body. */
  lemma ContentLengthAloneMeansNoBody(m: Message, integerValue: string -> int)
    requires m.headers.Some?
    requires forall k :: k in m.headers.value ==> !SameFieldName(k, "Transfer-Encoding")
    ensures BodyLength(m, integerValue) == 0
  {
  }

  /** The value of `Transfer-Encoding` plays no part: two requests with the
      same field names that differ only in it have the same body length. */
  lemma TransferEncodingValueIgnored(m1: Message, m2: Message, integerValue: string -> int)
    requires m1.headers.Some? && m2.headers.Some?
    requires m1.headers.value.Keys == m2.headers.value.Keys
    requires forall k :: k in m1.headers.value && !SameFieldName(k, "Transfer-Encoding") ==>
      m1.headers.value[k] == m2.headers.value[k]
    ensures BodyLength(m1, integerValue) == BodyLength(m2, integerValue)
  {
    assert !SameFieldName("Content-Length", "Transfer-Encoding") by {
      assert |FoldCase("Content-Length")| != |FoldCase("Transfer-Encoding")|;
    }
  }

  /** Field names are matched without regard to case: `content-length` is
      honoured like `Content-Length`. */
  lemma LowercaseContentLengthHonoured(integerValue: string -> int)
    ensures var h := map["content-length" := "5", "Transfer-Encoding" := "chunked"];
      DistinctFieldNames(h) &&
      BodyLength(Message("POST", "/", Some(h), None), integerValue) == integerValue("5")
  {
    var h := map["content-length" := "5", "Transfer-Encoding" := "chunked"];
    var m := Message("POST", "/", Some(h), None);
    assert !SameFieldName("content-length", "Transfer-Encoding") by {
      assert |FoldCase("content-length")| != |FoldCase("Transfer-Encoding")|;
    }
    assert SameFieldName("content-length", "Content-Length");
    assert HeaderField(m, "Content-Length") == Some("5");
    assert "Transfer-Encoding" in h && SameFieldName("Transfer-Encoding", "Transfer-Encoding");
    assert HeaderField(m, "Transfer-Encoding").Some?;
  }

  /** ASCII lower case: CoreFoundation compares header field names without
      regard to case. */
  function AsciiLower(c: char): char {
    if 'A' <= c <= 'Z' then (c as int - 'A' as int + 'a' as int) as char else c
  }

  /** A header field name with every ASCII letter in lower case. */
  function FoldCase(s: string): string {
    seq(|s|, i requires 0 <= i < |s| => AsciiLower(s[i]))
  }

  /** Two spellings of the same header field. */
  predicate SameFieldName(a: string, b: string) {
    FoldCase(a) == FoldCase(b)
  }

  /** A response under construction. `body` is `None` until body data is set. */
  datatype Response = Response(
    statusCode: int,
    statusDescription: string,
    headers: map<string, string>,
    body: Option<Bytes>)
  {
    /** The `bodyData` getter: the body, or empty data when there is none. */
    function BodyData(): (b: Bytes)
      ensures body.None? ==> b == []
      ensures body.Some? ==> b == body.value
    {
      body.GetOr([])
    }

    /** The `bodyData` setter; status and headers are untouched. */
    function WithBodyData(data: Bytes): (r: Response)
      ensures r.BodyData() == data
      ensures r.statusCode == statusCode && r.statusDescription == statusDescription
      ensures r.headers == headers
    {
      this.(body := Some(data))
    }

    /** `setHeaderField(_:value:)`: a value replaces the field, whatever the
        case of its existing name, and `nil` removes it; every field with
        another name, the status and the body are untouched. */
    function SetHeaderField(name: string, value: Option<string>): (r: Response)
      ensures value.Some? ==> name in r.headers && r.headers[name] == value.value
      ensures forall k :: k in r.headers && SameFieldName(k, name) ==> value.Some? && k == name
      ensures forall other :: !SameFieldName(other, name) ==>
        (other in r.headers <==> other in headers) &&
        (other in headers ==> r.headers[other] == headers[other])
      ensures r.statusCode == statusCode && r.statusDescription == statusDescription
      ensures r.BodyData() == BodyData()
    {
      var kept := map k | k in headers && !SameFieldName(k, name) :: headers[k];
      match value
      case Some(v) => this.(headers := kept[name := v])
      case None => this.(headers := kept)
    }
  }

  /** `HTTPResponse(statusCode:statusDescription:)`. `defaultDescription`
      stands for `Int.defaultHTTPStatusDescription`. Keep-alive is not
      offered: the only header is `Connection: close`. */
  function NewResponse(statusCode: int, statusDescription: Option<string>,
                       defaultDescription: int -> Option<string>): (r: Response)
    ensures r.statusCode == statusCode
    ensures statusDescription.Some? ==> r.statusDescription == statusDescription.value
    ensures statusDescription.None? && defaultDescription(statusCode).Some? ==>
      r.statusDescription == defaultDescription(statusCode).value
    ensures statusDescription.None? && defaultDescription(statusCode).None? ==>
      r.statusDescription == "Unknown"
    ensures r.headers == map["Connection" := "close"]
    ensures r.BodyData() == []
  {
    var status := match statusDescription
      case Some(d) => d
      case None => defaultDescription(statusCode).GetOr("Unknown");
    Response(statusCode, status, map["Connection" := "close"], None)
  }

  /** One mutation a handler applies to its response. */
  datatype Edit = SetHeader(name: string, value: Option<string>) | SetBody(data: Bytes)

  /** The response after a sequence of mutations, applied in order. */
  function ApplyEdits(r: Response, edits: seq<Edit>): Response
    decreases |edits|
  {
    if edits == [] then r
    else
      var r' := match edits[0]
        case SetHeader(name, value) => r.SetHeaderField(name, value)
        case SetBody(data) => r.WithBodyData(data);
      ApplyEdits(r', edits[1..])
  }

  /** Whether an edit touches the `Connection` header, in any case. */
  predicate TouchesConnection(e: Edit) {
    e.SetHeader? && SameFieldName(e.name, "Connection")
  }

  /** The forced `Connection: close` survives every mutation that does not
      name the `Connection` header itself, in whatever case. */
  lemma {:induction false} ConnectionCloseSurvives(r: Response, edits: seq<Edit>)
    requires "Connection" in r.headers && r.headers["Connection"] == "close"
    requires forall i :: 0 <= i < |edits| ==> !TouchesConnection(edits[i])
    ensures var r' := ApplyEdits(r, edits);
      "Connection" in r'.headers && r'.headers["Connection"] == "close"
    decreases |edits|
  {
    if edits != [] {
      var r' := match edits[0]
        case SetHeader(name, value) => r.SetHeaderField(name, value)
        case SetBody(data) => r.WithBodyData(data);
      assert !TouchesConnection(edits[0]);
      assert forall i :: 0 <= i < |edits[1..]| ==> !TouchesConnection(edits[1..][i]) by {
        forall i | 0 <= i < |edits[1..]| ensures !TouchesConnection(edits[1..][i]) {
          assert edits[1..][i] == edits[i + 1];
        }
      }
      ConnectionCloseSurvives(r', edits[1..]);
    }
  }

  /** Header names are matched without regard to case: setting `connection`
      replaces the forced `Connection: close` instead of adding a second field. */
  lemma LowercaseConnectionReplaces(defaultDescription: int -> Option<string>)
    ensures var r := NewResponse(200, None, defaultDescription).SetHeaderField("connection", Some("keep-alive"));
      r.headers == map["connection" := "keep-alive"]
  {
    assert SameFieldName("Connection", "connection");
  }

  /** The response built by the end-to-end test's handler: status 200 "Ok",
      body "hey", then `Content-Length` from the body size and `Foo: Bar`. */
  lemma TestHandlerResponse(defaultDescription: int -> Option<string>)
    ensures var hey: Bytes := [0x68, 0x65, 0x79];
      var r := NewResponse(200, Some("Ok"), defaultDescription)
        .WithBodyData(hey)
        .SetHeaderField("Content-Length", Some("3"))
        .SetHeaderField("Foo", Some("Bar"));
      r.statusCode == 200 && r.statusDescription == "Ok" && r.BodyData() == hey &&
      r.headers == map["Connection" := "close", "Content-Length" := "3", "Foo" := "Bar"]
  {
  }
}

=== FILE: http_server.dfy ===
/** The incremental request assembler and the per-connection read callback
    that drives it. The assembler is a pure function of (state, accumulated
    bytes) to (next state, unconsumed remainder); the connection keeps the
    accumulated bytes and the state between reads and reports what the
    callback does as a list of effects. */
module HTTPServer {
  import opened Basics
  import opened HTTPMessage
  import ClientSocket

  const CR: Byte := 13
  const LF: Byte := 10

  /** CR LF CR LF starts at index `i` of `d`. */
  predicate TerminatorAt(d: Bytes, i: nat) {
    i + 4 <= |d| && d[i] == CR && d[i + 1] == LF && d[i + 2] == CR && d[i + 3] == LF
  }

  /** `Data.range(of: "\r\n\r\n")` searching from `from`: the leftmost start of
      the terminator at or after `from`. */
  function FindTerminatorFrom(d: Bytes, from: nat): (r: Option<nat>)
    ensures r.Some? ==> from <= r.value && TerminatorAt(d, r.value)
    ensures r.Some? ==> forall j :: from <= j < r.value ==> !TerminatorAt(d, j)
    ensures r.None? ==> forall j :: from <= j ==> !TerminatorAt(d, j)
    decreases |d| - from
  {
    if from + 4 > |d| then None
    else if TerminatorAt(d, from) then Some(from)
    else FindTerminatorFrom(d, from + 1)
  }

  /** The leftmost CR LF CR LF in `d`, if any. */
  function FindTerminator(d: Bytes): Option<nat> {
    FindTerminatorFrom(d, 0)
  }

  /** Appending bytes never moves a terminator already found: the leftmost
      one of a prefix is the leftmost one of the whole. */
  lemma TerminatorStable(p: Bytes, d: Bytes)
    requires FindTerminator(p).Some?
    ensures FindTerminator(p + d) == FindTerminator(p)
  {
    var i := FindTerminator(p).value;
    assert TerminatorAt(p + d, i);
    forall j | 0 <= j < i
      ensures !TerminatorAt(p + d, j)
    {
      assert !TerminatorAt(p, j);
    }
  }

  /** `splitData(data, location:)`: the bytes before `location` and the rest. */
  function SplitData(d: Bytes, location: int): (r: (Bytes, Bytes))
    requires 0 <= location <= |d|
    ensures r.0 + r.1 == d
    ensures |r.0| == location
  {
    (d[..location], d[location..])
  }

  /** `RequestInProgress`; `NoRequest` is the initial `.none`. A body length
      is never negative once stored. */
  datatype RequestInProgress =
    | NoRequest
    | Error
    | IncompleteHeader
    | IncompleteMessage(message: Message, bodyLength: nat)
    | Complete(message: Message, bodyLength: nat)

  /** The result of consuming bytes: the next state and the bytes not
      consumed (`RequestInProgressAndRemainder`), or the runtime trap that a
      negative body length causes when `splitData` forms the range
      `0 ..< location`. */
  datatype Consumed =
    | RequestInProgressAndRemainder(request: RequestInProgress, remainder: Bytes)
    | RangeTrap

  /** `consumeData`. In `none`/`incompleteHeader` the bytes are searched for
      the header terminator; the header block (through the terminator) is
      parsed, and as many body bytes as the body length asks for are split
      off the rest. In `incompleteMessage` the bytes are all body so far. */
  function ConsumeData(state: RequestInProgress, data: Bytes, codec: Codec): (r: Consumed)
    ensures r.RequestInProgressAndRemainder? ==> !r.request.NoRequest?
    ensures r.RequestInProgressAndRemainder? ==>
      |r.remainder| <= |data| && r.remainder == data[|data| - |r.remainder|..]
    ensures state.Error? || state.Complete? ==> r == RequestInProgressAndRemainder(state, data)
    ensures state.IncompleteMessage? ==>
      r.RequestInProgressAndRemainder? &&
      (r.request.IncompleteMessage? || r.request.Complete?) &&
      r.request.bodyLength == state.bodyLength
    ensures r.RangeTrap? ==> state.NoRequest? || state.IncompleteHeader?
  {
    match state
    case Error => RequestInProgressAndRemainder(Error, data)
    case NoRequest => ConsumeHeader(data, codec)
    case IncompleteHeader => ConsumeHeader(data, codec)
    case IncompleteMessage(message, bodyLength) =>
      if bodyLength <= |data| then
        var split := SplitData(data, bodyLength);
        RequestInProgressAndRemainder(Complete(AppendBody(message, split.0), bodyLength), split.1)
      else
        RequestInProgressAndRemainder(IncompleteMessage(message, bodyLength), data)
    case Complete(message, bodyLength) =>
      RequestInProgressAndRemainder(Complete(message, bodyLength), data)
  }

  /** The shared `none`/`incompleteHeader` branch of `consumeData`. */
  function ConsumeHeader(data: Bytes, codec: Codec): (r: Consumed)
    ensures r.RequestInProgressAndRemainder? ==>
      |r.remainder| <= |data| && r.remainder == data[|data| - |r.remainder|..]
    ensures r.RequestInProgressAndRemainder? ==> !r.request.NoRequest?
  {
    match FindTerminator(data)
    case None => RequestInProgressAndRemainder(IncompleteHeader, data)
    case Some(i) =>
      var split := SplitData(data, i + 4);
      match codec.parseHeader(split.0)
      case None => RequestInProgressAndRemainder(Error, data)
      case Some(message) =>
        var bodyLength := BodyLength(message, codec.integerValue);
        var tail := split.1;
        if bodyLength <= |tail| then
          if bodyLength < 0 then RangeTrap
          else
            var split2 := SplitData(tail, bodyLength);
            RequestInProgressAndRemainder(Complete(AppendBody(message, split2.0), bodyLength), split2.1)
        else
          RequestInProgressAndRemainder(IncompleteMessage(message, bodyLength), tail)
  }

  /** `none` behaves exactly like `incompleteHeader`. */
  lemma NoRequestIsIncompleteHeader(data: Bytes, codec: Codec)
    ensures ConsumeData(NoRequest, data, codec) == ConsumeData(IncompleteHeader, data, codec)
  {
  }

  /** Without CR LF CR LF the header is still incomplete and every byte is
      kept for the next read. */
  lemma NoTerminatorKeepsEverything(state: RequestInProgress, data: Bytes, codec: Codec)
    requires state.NoRequest? || state.IncompleteHeader?
    requires forall j :: 0 <= j < |data| ==> !TerminatorAt(data, j)
    ensures ConsumeData(state, data, codec) == RequestInProgressAndRemainder(IncompleteHeader, data)
  {
  }

  /** A header block the parser rejects is an error, and every byte is
      handed back. */
  lemma HeaderParseFailure(state: RequestInProgress, data: Bytes, codec: Codec, i: nat)
    requires state.NoRequest? || state.IncompleteHeader?
    requires FindTerminator(data) == Some(i)
    requires codec.parseHeader(data[..i + 4]).None?
    ensures ConsumeData(state, data, codec) == RequestInProgressAndRemainder(Error, data)
  {
  }

  /** When the bytes after the header hold the whole body, the request is
      complete: the header block ends at the leftmost terminator, the body of
      the completed request is the next `bodyLength` bytes, and header, body
      and remainder make up the input exactly. The parser is handed the
      header block alone, so the message it returns has no body yet. */
  lemma CompleteInOneRead(state: RequestInProgress, data: Bytes, codec: Codec, i: nat, m: Message)
    requires state.NoRequest? || state.IncompleteHeader?
    requires FindTerminator(data) == Some(i)
    requires codec.parseHeader(data[..i + 4]) == Some(m) && m.body.None?
    requires 0 <= BodyLength(m, codec.integerValue) <= |data| - (i + 4)
    ensures var n := BodyLength(m, codec.integerValue);
      var body := data[i + 4..i + 4 + n];
      var rest := data[i + 4 + n..];
      && ConsumeData(state, data, codec) == RequestInProgressAndRemainder(Complete(AppendBody(m, body), n), rest)
      && BodyData(ConsumeData(state, data, codec).request.message) == body
      && data == data[..i + 4] + body + rest
      && |body| == n
  {
    var n := BodyLength(m, codec.integerValue);
    var tail := data[i + 4..];
    assert tail[..n] == data[i + 4..i + 4 + n];
    assert tail[n..] == data[i + 4 + n..];
    var done := Complete(AppendBody(m, tail[..n]), n);
    assert ConsumeData(state, data, codec) == RequestInProgressAndRemainder(done, tail[n..]);
    assert BodyData(done.message) == tail[..n];
  }

  /** When the body has not fully arrived, the parsed message waits with its
      body length and all bytes after the header are kept. */
  lemma AwaitBody(state: RequestInProgress, data: Bytes, codec: Codec, i: nat, m: Message)
    requires state.NoRequest? || state.IncompleteHeader?
    requires FindTerminator(data) == Some(i)
    requires codec.parseHeader(data[..i + 4]) == Some(m)
    requires BodyLength(m, codec.integerValue) > |data| - (i + 4)
    ensures ConsumeData(state, data, codec) ==
      RequestInProgressAndRemainder(IncompleteMessage(m, BodyLength(m, codec.integerValue)), data[i + 4..])
  {
  }

  /** A negative body length passes the `bodyLength <= tail.count` test and
      reaches `splitData` with a location outside the data. */
  lemma NegativeBodyLengthTraps(state: RequestInProgress, data: Bytes, codec: Codec, i: nat, m: Message)
    requires state.NoRequest? || state.IncompleteHeader?
    requires FindTerminator(data) == Some(i)
    requires codec.parseHeader(data[..i + 4]) == Some(m)
    requires BodyLength(m, codec.integerValue) < 0
    ensures ConsumeData(state, data, codec).RangeTrap?
  {
  }

  /** From `incompleteMessage` the request completes as soon as the bytes
      cover the body, taking exactly `bodyLength` of them; until then all
      bytes are kept. */
  lemma BodyArrives(m: Message, n: nat, data: Bytes, codec: Codec)
    ensures n <= |data| ==>
      ConsumeData(IncompleteMessage(m, n), data, codec) ==
      RequestInProgressAndRemainder(Complete(AppendBody(m, data[..n]), n), data[n..])
    ensures n > |data| ==>
      ConsumeData(IncompleteMessage(m, n), data, codec) ==
      RequestInProgressAndRemainder(IncompleteMessage(m, n), data)
  {
  }

  /** One read: the accumulated remainder with the new chunk appended is
      handed to `consumeData`. A trap ends everything. */
  function Feed(c: Consumed, chunk: Bytes, codec: Codec): (r: Consumed)
    ensures c.RangeTrap? ==> r.RangeTrap?
    ensures r.RequestInProgressAndRemainder? ==>
      c.RequestInProgressAndRemainder? && !r.request.NoRequest? &&
      |r.remainder| <= |c.remainder + chunk| &&
      r.remainder == (c.remainder + chunk)[|c.remainder + chunk| - |r.remainder|..]
  {
    match c
    case RangeTrap => RangeTrap
    case RequestInProgressAndRemainder(state, accumulated) => ConsumeData(state, accumulated + chunk, codec)
  }

  /** Consuming a prefix, then the rest together with the prefix's remainder,
      ends where consuming everything at once ends. */
  lemma ConsumeExtend(p: Bytes, d: Bytes, codec: Codec)
    ensures Feed(ConsumeData(NoRequest, p, codec), d, codec) == ConsumeData(NoRequest, p + d, codec)
  {
    var q := p + d;
    match FindTerminator(p)
    case None =>
    case Some(i) =>
      TerminatorStable(p, d);
      assert q[..i + 4] == p[..i + 4];
      assert q[i + 4..] == p[i + 4..] + d;
      match codec.parseHeader(p[..i + 4])
      case None =>
      case Some(m) =>
        var n := BodyLength(m, codec.integerValue);
        var tail := p[i + 4..];
        if 0 <= n <= |tail| {
          assert (tail + d)[..n] == tail[..n];
          assert (tail + d)[n..] == tail[n..] + d;
        }
  }

  /** The state before any data: nothing accumulated, request `none`. */
  const Initial: Consumed := RequestInProgressAndRemainder(NoRequest, [])

  /** The chunks in the order they were read. */
  function Concat(chunks: seq<Bytes>): Bytes
    decreases |chunks|
  {
    if chunks == [] then [] else Concat(chunks[..|chunks| - 1]) + chunks[|chunks| - 1]
  }

  /** Every chunk fed in turn, starting from the initial state. */
  function FeedAll(chunks: seq<Bytes>, codec: Codec): Consumed
    decreases |chunks|
  {
    if chunks == [] then Initial
    else Feed(FeedAll(chunks[..|chunks| - 1], codec), chunks[|chunks| - 1], codec)
  }

  /** However the byte stream is cut into reads, the final state and
      remainder are those of consuming the whole stream at once. */
  lemma {:induction false} ChunkingInvariant(chunks: seq<Bytes>, codec: Codec)
    requires chunks != []
    ensures FeedAll(chunks, codec) == ConsumeData(NoRequest, Concat(chunks), codec)
    decreases |chunks|
  {
    var init := chunks[..|chunks| - 1];
    var last := chunks[|chunks| - 1];
    if init == [] {
      assert Concat(chunks) == last;
      assert FeedAll(chunks, codec) == ConsumeData(NoRequest, [] + last, codec);
      assert [] + last == last;
    } else {
      ChunkingInvariant(init, codec);
      ConsumeExtend(Concat(init), last, codec);
    }
  }

  /** A header trickled in over any number of reads, none of which completes
      the terminator, stays `incompleteHeader` and keeps every byte. */
  lemma TrickledHeaderStaysIncomplete(chunks: seq<Bytes>, codec: Codec)
    requires chunks != []
    requires forall j :: 0 <= j < |Concat(chunks)| ==> !TerminatorAt(Concat(chunks), j)
    ensures FeedAll(chunks, codec) == RequestInProgressAndRemainder(IncompleteHeader, Concat(chunks))
  {
    ChunkingInvariant(chunks, codec);
    NoTerminatorKeepsEverything(NoRequest, Concat(chunks), codec);
  }

  /** How `channel.close(flags:)` is asked to close: `[]` lets queued output
      finish, `.stop` discards it. */
  datatype CloseFlags = Graceful | Stop

  /** What the read callback and the response callback do besides updating
      their state. */
  datatype Effect =
    | LogChannelError(code: int)
    | InvokeHandler(request: Message, clientAddress: ClientSocket.SocketAddress)
    | WriteResponse(response: Response)
    | Close(flags: CloseFlags)
    | Trap

  /** The error the channel reports when the read is cancelled by a close. */
  const OperationCancelledError: int := 89

  /** A read error other than 0 and the cancellation code is logged. */
  function ErrorEffects(error: int): (effects: seq<Effect>)
    ensures effects != [] <==> error != 0 && error != OperationCancelledError
    ensures effects != [] ==> effects == [LogChannelError(error)]
  {
    if error != 0 && error != OperationCancelledError then [LogChannelError(error)] else []
  }

  /** The `switch request` of the read callback. */
  function DispatchEffects(request: RequestInProgress, clientAddress: ClientSocket.SocketAddress): (effects: seq<Effect>)
    ensures request.Complete? ==> effects == [InvokeHandler(request.message, clientAddress)]
    ensures request.Error? ==> effects == [Close(Stop)]
    ensures !request.Complete? && !request.Error? ==> effects == []
  {
    match request
    case Complete(message, _) => [InvokeHandler(message, clientAddress)]
    case Error => [Close(Stop)]
    case _ => []
  }

  /** The response callback handed to the request handler: a response is
      written, no response closes the channel without writing. */
  function RespondEffects(maybeResponse: Option<Response>): (effects: seq<Effect>)
    ensures maybeResponse.Some? ==> effects == [WriteResponse(maybeResponse.value)]
    ensures maybeResponse.None? ==> effects == [Close(Graceful)]
  {
    match maybeResponse
    case Some(response) => [WriteResponse(response)]
    case None => [Close(Graceful)]
  }

  /** The write-progress callback: the channel is stopped once the write is
      done or has failed, and left alone while it is in progress. */
  function WriteProgressEffects(done: bool, error: int): (effects: seq<Effect>)
    ensures effects == [] || effects == [Close(Stop)]
    ensures effects == [Close(Stop)] <==> done || error != 0
  {
    if error != 0 || done then [Close(Stop)] else []
  }

  /** A read continues from the state a single read of everything received
      before it would have reached. */
  lemma FeedAfterReceived(started: bool, received: Bytes, request: RequestInProgress,
                          accumulated: Bytes, d: Bytes, codec: Codec)
    requires !started ==> request == NoRequest && accumulated == [] && received == []
    requires started ==>
      ConsumeData(NoRequest, received, codec) == RequestInProgressAndRemainder(request, accumulated)
    ensures ConsumeData(request, accumulated + d, codec) == ConsumeData(NoRequest, received + d, codec)
  {
    if started {
      ConsumeExtend(received, d, codec);
    } else {
      assert accumulated + d == received + d;
    }
  }

  /** The state `httpConnectionHandler` keeps for one connection between
      reads: the accumulated bytes (`accumulated`) and the request state
      (`request`). `received` is every byte read so far, `started` whether
      any data has arrived and `trapped` whether a read has trapped. */
  class Connection {
    const clientAddress: ClientSocket.SocketAddress
    const codec: Codec
    var accumulated: Bytes
    var request: RequestInProgress
    ghost var received: Bytes
    ghost var started: bool
    ghost var trapped: bool

    /** The state is what consuming all bytes received so far in a single
        read would give. */
    ghost predicate Valid()
      reads this
    {
      if !started then
        request == NoRequest && accumulated == [] && received == [] && !trapped
      else
        (trapped <==> ConsumeData(NoRequest, received, codec).RangeTrap?) &&
        (!trapped ==> ConsumeData(NoRequest, received, codec) == RequestInProgressAndRemainder(request, accumulated))
    }

    constructor (clientAddress: ClientSocket.SocketAddress, codec: Codec)
      ensures Valid() && !started && !trapped
      ensures this.clientAddress == clientAddress && this.codec == codec
      ensures request == NoRequest && accumulated == []
    {
      this.clientAddress := clientAddress;
      this.codec := codec;
      accumulated := [];
      request := NoRequest;
      received := [];
      started := false;
      trapped := false;
    }

    /** The read callback `(done, data, error)`. New data is appended to the
        accumulated bytes, which are consumed and replaced by the remainder;
        then a complete request invokes the handler (on every callback that
        finds it complete), an error stops the channel, and end of stream
        closes it. */
    method ReadCallback(done: bool, data: Option<Bytes>, error: int) returns (effects: seq<Effect>)
      requires Valid() && !trapped
      modifies this
      ensures Valid()
      ensures received == old(received) + data.GetOr([])
      ensures started == (old(started) || data.Some?)
      ensures data.None? ==> request == old(request) && accumulated == old(accumulated) && !trapped
      ensures data.Some? ==>
        (trapped <==> ConsumeData(old(request), old(accumulated) + data.value, codec).RangeTrap?)
      ensures data.Some? && !trapped ==>
        RequestInProgressAndRemainder(request, accumulated) == ConsumeData(old(request), old(accumulated) + data.value, codec)
      ensures trapped ==> request == old(request) && accumulated == old(accumulated)
      ensures trapped ==> effects == ErrorEffects(error) + [Trap]
      ensures !trapped ==>
        effects == ErrorEffects(error) + DispatchEffects(request, clientAddress) + (if done then [Close(Graceful)] else [])
    {
      effects := ErrorEffects(error);
      if data.Some? {
        var r := ConsumeData(request, accumulated + data.value, codec);
        FeedAfterReceived(started, received, request, accumulated, data.value, codec);
        received := received + data.value;
        started := true;
        if r.RangeTrap? {
          trapped := true;
          effects := effects + [Trap];
          return;
        }
        request := r.request;
        accumulated := r.remainder;
      }
      effects := effects + DispatchEffects(request, clientAddress);
      if done {
        effects := effects + [Close(Graceful)];
      }
    }
  }

  /** There is no once-only guard: a request completed by one read invokes the
      handler again on the end-of-stream callback that follows. */
  method HandlerRunsOnEveryCallback(clientAddress: ClientSocket.SocketAddress, codec: Codec, bytes: Bytes)
    returns (first: seq<Effect>, second: seq<Effect>)
    requires ConsumeData(NoRequest, bytes, codec).RequestInProgressAndRemainder?
    requires ConsumeData(NoRequest, bytes, codec).request.Complete?
    ensures var m := ConsumeData(NoRequest, bytes, codec).request.message;
      InvokeHandler(m, clientAddress) in first && InvokeHandler(m, clientAddress) in second
    ensures Close(Graceful) in second
  {
    var c := new Connection(clientAddress, codec);
    assert [] + bytes == bytes;
    first := c.ReadCallback(false, Some(bytes), 0);
    second := c.ReadCallback(true, None, 0);
  }
}

=== FILE: socket_server.dfy ===
/** The listening side: choosing a port by linear probe, and draining the
    pending connections that one wake-up of the accept source reports. */
module SocketServer {
  import opened Basics
  import Errors
  import Darwin
  import ClientSocket

  /** `EADDRINUSE`: the only bind error that moves the probe on. */
  const EADDRINUSE: int := 48
  /** The probe starts at `FIRST_PORT + r` for a random `r < PORT_SPREAD`
      and runs up to `LAST_PORT` inclusive. */
  const FIRST_PORT: int := 8000
  const PORT_SPREAD: int := 1000
  const LAST_PORT: int := 10000

  /** The errors that creating a server can end with. */
  datatype SocketError = NoPortAvailable | BindFailed(error: Errors.DarwinError)

  /** The first port probed, for `r = arc4random_uniform(1000)`. */
  function StartPort(r: nat): (port: int)
    requires r < PORT_SPREAD
    ensures 8000 <= port <= 8999
  {
    FIRST_PORT + r
  }

  /** A bind outcome that the probe treats as "try the next port". */
  predicate InUse(outcome: Outcome<Errors.DarwinError>) {
    outcome.Fail? && outcome.error.backing == Errors.POSIXError(EADDRINUSE)
  }

  /** Every port in `[lo, hi)` is already in use. */
  ghost predicate AllInUse(bind: int -> Outcome<Errors.DarwinError>, lo: int, hi: int) {
    forall port :: lo <= port < hi ==> InUse(bind(port))
  }

  /** `bindToAnyPort`. `r` stands for `arc4random_uniform(1000)` and `bind`
      for the outcome of binding the socket to each port. The result is the
      first port of the range that binds, or the first bind error that is not
      "in use", or `noPortAvailable` when every port is in use. */
  method BindToAnyPort(r: nat, bind: int -> Outcome<Errors.DarwinError>) returns (result: Result<int, SocketError>)
    requires r < PORT_SPREAD
    ensures result.Success? ==>
      StartPort(r) <= result.value <= LAST_PORT &&
      bind(result.value).Pass? &&
      AllInUse(bind, StartPort(r), result.value)
    ensures result.Failure? && result.error.BindFailed? ==>
      exists port :: StartPort(r) <= port <= LAST_PORT &&
        bind(port) == Fail(result.error.error) && !InUse(bind(port)) &&
        AllInUse(bind, StartPort(r), port)
    ensures result.Failure? && result.error.NoPortAvailable? ==>
      AllInUse(bind, StartPort(r), LAST_PORT + 1)
  {
    var port := StartPort(r);
    while port <= LAST_PORT
      invariant StartPort(r) <= port <= LAST_PORT + 1
      invariant AllInUse(bind, StartPort(r), port)
    {
      var outcome := bind(port);
      match outcome
      case Pass =>
        return Success(port);
      case Fail(e) =>
        if !InUse(outcome) {
          return Failure(BindFailed(e));
        }
      port := port + 1;
    }
    return Failure(NoPortAvailable);
  }

  /** The outcome of a `bindToPort` built on the free `attempt` with the zero
      rule: `bind(2)` returns 0 or -1, and a failure is thrown with the
      returned value as its code, not with `errno`. */
  function AttemptedBind(raw: CInt): (outcome: Outcome<Errors.DarwinError>)
    ensures outcome.Pass? <==> raw == 0
    ensures outcome.Fail? ==> outcome.error.operation == "bind(2)" && outcome.error.Code() == raw as int
  {
    match Errors.Attempt("bind(2)", Errors.IsZero, raw)
    case Success(_) => Pass
    case Failure(e) => Fail(e)
  }

  /** As written: a failed bind is thrown with code -1, which is never
      `EADDRINUSE`, so the probe never gets past its first port. `raw` gives
      what `bind(2)` returns for each port. */
  method BindToAnyPortAsWritten(r: nat, raw: int -> CInt) returns (result: Result<int, SocketError>)
    requires r < PORT_SPREAD
    requires forall port :: raw(port) == 0 || raw(port) == -1
    ensures raw(StartPort(r)) == 0 ==> result == Success(StartPort(r))
    ensures raw(StartPort(r)) != 0 ==>
      result.Failure? && result.error.BindFailed? && result.error.error.Code() == -1
  {
    var bind := (port: int) => AttemptedBind(raw(port));
    assert !InUse(bind(StartPort(r)));
    result := BindToAnyPort(r, bind);
  }

  /** A failed bind reported with its `errno`, as the probe expects. */
  function ErrnoBind(raw: CInt, errno: CInt): (outcome: Outcome<Errors.DarwinError>)
    ensures outcome.Pass? <==> raw == 0
    ensures outcome.Fail? ==> outcome.error.operation == "bind(2)" && outcome.error.Code() == errno as int
  {
    if raw == 0 then Pass else Fail(Errors.MakeDarwinError("bind(2)", errno))
  }

  /** With `errno` carried by the error, the probe skips every port already
      in use: it binds the first port that is free, stops at the first
      failure for another reason, or runs out of ports. */
  method BindToAnyPortWithErrno(r: nat, raw: int -> CInt, errno: int -> CInt) returns (result: Result<int, SocketError>)
    requires r < PORT_SPREAD
    ensures result.Success? ==>
      StartPort(r) <= result.value <= LAST_PORT && raw(result.value) == 0 &&
      forall port :: StartPort(r) <= port < result.value ==> raw(port) != 0 && errno(port) as int == EADDRINUSE
    ensures result.Failure? && result.error.BindFailed? ==>
      exists port :: StartPort(r) <= port <= LAST_PORT &&
        raw(port) != 0 && errno(port) as int != EADDRINUSE && result.error.error.Code() == errno(port) as int &&
        forall p :: StartPort(r) <= p < port ==> raw(p) != 0 && errno(p) as int == EADDRINUSE
    ensures result.Failure? && result.error.NoPortAvailable? ==>
      forall port :: StartPort(r) <= port <= LAST_PORT ==> raw(port) != 0 && errno(port) as int == EADDRINUSE
  {
    var bind := (port: int) => ErrnoBind(raw(port), errno(port));
    forall port
      ensures InUse(bind(port)) <==> raw(port) != 0 && errno(port) as int == EADDRINUSE
    {
    }
    result := BindToAnyPort(r, bind);
  }

  /** The channel handed to the accept handler: the new connection's socket
      (whose I/O channel is not modelled) and the client's address. */
  datatype Channel = Channel(socket: CInt, address: ClientSocket.SocketAddress)

  /** One accept's outcome. */
  type AcceptOutcome = Result<ClientSocket.ClientSocket, Darwin.CallError>

  /** The channels of the successful accepts, in order. */
  function Accepted(accepts: seq<AcceptOutcome>): (channels: seq<Channel>)
    ensures |channels| <= |accepts|
  {
    if accepts == [] then []
    else
      var previous := Accepted(accepts[..|accepts| - 1]);
      match accepts[|accepts| - 1]
      case Success(client) => previous + [Channel(client.backingSocket, client.address)]
      case Failure(_) => previous
  }

  /** The errors of the failed accepts, in order. */
  function Failed(accepts: seq<AcceptOutcome>): (errors: seq<Darwin.CallError>)
    ensures |errors| <= |accepts|
  {
    if accepts == [] then []
    else
      var previous := Failed(accepts[..|accepts| - 1]);
      match accepts[|accepts| - 1]
      case Success(_) => previous
      case Failure(e) => previous + [e]
  }

  /** The event handler of the accept source: `forEachPendingConnection`
      runs its block `pending` times (the source's `data`), each time
      accepting one connection; `accepts` holds the outcome of each accept.
      A successful accept is handed to the accept handler; a failed one is
      logged and the loop goes on. `iterations` is the loop counter, so that
      the block runs `pending` times is stated by `|handled| + |logged|`:
      every iteration hands over one connection or logs one error. */
  method AcceptPendingConnections(pending: nat, accepts: seq<AcceptOutcome>)
    returns (iterations: nat, handled: seq<Channel>, logged: seq<Darwin.CallError>)
    requires |accepts| == pending
    ensures iterations == pending
    ensures handled == Accepted(accepts)
    ensures logged == Failed(accepts)
    ensures |handled| + |logged| == pending
  {
    iterations, handled, logged := 0, [], [];
    while iterations < pending
      invariant iterations <= pending
      invariant handled == Accepted(accepts[..iterations])
      invariant logged == Failed(accepts[..iterations])
      invariant |handled| + |logged| == iterations
    {
      assert accepts[..iterations + 1][..iterations] == accepts[..iterations];
      match accepts[iterations] {
        case Success(client) =>
          handled := handled + [Channel(client.backingSocket, client.address)];
        case Failure(e) =>
          logged := logged + [e];
      }
      iterations := iterations + 1;
    }
    assert accepts[..pending] == accepts;
  }

  /** Accepting distributes over consecutive batches of outcomes. */
  lemma {:induction false} AcceptedAppend(a: seq<AcceptOutcome>, b: seq<AcceptOutcome>)
    ensures Accepted(a + b) == Accepted(a) + Accepted(b)
    decreases |b|
  {
    if b == [] {
      assert a + b == a;
    } else {
      var b' := b[..|b| - 1];
      assert (a + b)[..|a + b| - 1] == a + b';
      AcceptedAppend(a, b');
    }
  }

  /** One failed accept does not stop the drain: the connections after it
      are handed over just as if it had not happened. */
  lemma FailedAcceptSkipped(a: seq<AcceptOutcome>, e: Darwin.CallError, b: seq<AcceptOutcome>)
    ensures Accepted(a + [Failure(e)] + b) == Accepted(a) + Accepted(b)
  {
    var f: seq<AcceptOutcome> := [Failure(e)];
    AcceptedAppend(a + f, b);
    AcceptedAppend(a, f);
    assert f[..0] == [];
    assert Accepted(f) == [];
  }

  /** `deinit`: the accept source is cancelled and the listening socket is
      closed through `attempt` with the `.zero` rule; a failed close is only
      logged. The result is the logged error, if any. */
  function Teardown(closeResult: CInt): (logged: Option<Darwin.CallError>)
    ensures logged.Some? <==> closeResult != 0
    ensures logged.Some? ==> logged.value.operation == "close(2)" && logged.value.Code() == closeResult as int
  {
    var outcome := match Darwin.Attempt("close(2)", Darwin.Zero, closeResult)
      case Success(_) => Pass
      case Failure(e) => Fail(e);
    Errors.IgnoreAndLogErrors(outcome)
  }
}
